=== FILE: README.md ===
# Coolant tank controller — a Dafny model

This project models the control core of a coolant-tank dashboard
(`backup.py`). Once a second the program polls two input registers, tank
level and flow, and scales them by 1/100. It rounds both to a tenth and runs
one control step, which:

- forces a full stop while the system is disabled;
- runs a two-threshold fill hysteresis: it enters fill mode below 3.0 and
  leaves it at 10.0 or above, and on leaving it publishes the mean interval
  between fill starts;
- opens the discharge valve and schedules the discharge pump on every
  enabled step;
- keeps a 20-sample rolling flow history;
- nudges the flow target by 0.01 toward the tolerance band [1.95, 2.05] of
  the rolling average, within [1.8, 2.2];
- drives the discharge valve register with an incremental proportional
  regulator (deadband 0.01, gain 100, clamp to [0, 1000]).

Register writes go through a write cache (`last_flows`): a write whose
value equals the cached one is suppressed. Coil writes are not suppressed.

## Structure

- `bus.dfy` (`Bus`): the bus as an append-only log of `BusEvent`s
  (`WriteCoil`, `WriteCoils`, `WriteRegister`, `ScheduleStart(coil)` for a
  delayed pump start). It also defines the bus-level suppression property
  `NoRedundantWrite` and the range property `RegistersInRange`.
- `regulator.dfy` (`Regulator`): the proportional regulator as a function.
- `target_adapter.dfy` (`TargetAdapter`): the setpoint adapter as a function.
- `flow_history.dfy` (`FlowHistory`): `deque(maxlen=20).append`, the sum,
  the average and the maximum.
- `fill_interval.dfy` (`FillInterval`): the consecutive gaps and their mean.
- `control_spec.dfy` (`ControlSpec`): the controller state (the module
  globals plus the bus log) and each operation as a function on it. This
  includes the whole step (`Step`), one poll (`Tick`), the toggle and a
  finite run of polls and button presses (`Run`). It also defines the
  invariant `Inv`.
- `control_props.dfy` (`ControlProps`): the properties, as lemmas about
  `ControlSpec`.
- `controller.dfy` (`CoolantController`): the class `Controller`. Its
  fields are the globals, and each source function is a method that
  updates them in place. Each method is proved to produce exactly the state
  the corresponding `ControlSpec` function gives.

Units: level, flow, target and valve commands are integers in hundredths
(level 2.9 is 290; a flow of 1.80 L/min is 180). The rolling average and
timestamps are `real`. In these units:

- `int(gain * error)` is exactly `target - flow`;
- the deadband test `abs(error) < 0.01` holds exactly when the two are equal;
- the thresholds 3.0 and 10.0 are 300 and 1000.

Two behaviours of the code are kept as written:

- `last_flows` starts as `{0: None, 1: None}`, so `last_flows.get(1, 500)`
  returns `None`, never 500. When the regulator runs before register 1 has
  been cached, the source raises a `TypeError` out of the polling loop,
  which ends the polling thread. The model makes this the outcome
  `UncachedValve`. The state keeps everything the step did before the
  regulator, and `Run` ignores later polls. `UncachedValveReachable` shows
  an input sequence that reaches it: start pressed before the first poll,
  then a first poll with the level between the thresholds. The `500` in
  `last_flows.get(1, 500)` is dead because key 1 is always present. Inside
  the deadband the `None` reaches `int(None)` in `write_valve_flow`
  (backup.py:37) and raises there, so the fault does not depend on the
  error.
- Only register writes are suppressed. A repeated disabled step re-issues
  the four-coil write but no register write (`RepeatedDisabledStep`). An
  enabled step re-issues the discharge coil write every cycle.

## Model

| member | source | states |
|---|---|---|
| Regulator.Clamp | backup.py:114 | `max(0, min(1000, v))` lies in the range and is the identity inside it |
| Regulator.Regulate | backup.py:108-114 | inside the deadband the previous command is kept. Outside it the command lies in [0, 1000]. It never moves against the error. It moves by at most the error |
| Regulator.RegulateIsNearestCommand | backup.py:112-114 | outside the deadband the new command is the point of [0, 1000] nearest to previous command + 100·error |
| Regulator.RegulateExample | backup.py:108-114 | target 2.00 and flow 1.80 from 500 give 520; equal target and flow keep 500 |
| TargetAdapter.NextTarget | backup.py:55-60 | from a target in [1.8, 2.2] the result stays in range and moves by at most 0.01. It rises only when avg < 1.95 and falls only when avg > 2.05. Inside the band it is unchanged. Below/above the band it moves a full step unless at the bound |
| TargetAdapter.Adapt | backup.py:55-60 | after any sequence of adaptations a target that starts in range is still in range, within 0.01 per adaptation of where it began |
| TargetAdapter.NextTargetExamples | backup.py:55-60 | averages 1.90, 2.10 and 2.00 raise, lower and keep the target; saturation at 2.2 and 1.8 |
| FlowHistory.Append | backup.py:101 | the deque keeps the min(n+1, 20) most recent samples of history + [flow] |
| FlowHistory.Max | backup.py:106 | the rolling maximum is a sample and bounds every sample |
| FillInterval.GapsTelescope | backup.py:92-93 | the consecutive gaps of the fill timestamps sum to last − first |
| FillInterval.AverageInterval | backup.py:91-93 | the mean gap equals (last − first)/(n − 1) |
| FillInterval.AverageIntervalOfTwo | backup.py:92-93 | with two timestamps t1, t2 the mean interval is t2 − t1 |
| Bus.LastRegisterWrite | backup.py:38-40 | the value the write cache should hold for a register: the last value written to it on the bus, which does occur in the log |
| Bus.NoRedundantWrite | backup.py:38-39 | write suppression seen on the bus: no register write repeats the value last written to that register (kept by `StepInv`, `RunInv`, `Always`) |
| Bus.RegistersInRange | backup.py:36-41 | every register write goes to register 0 or 1 with a command in [0, 1000] (kept by `StepInv`, `RunInv`, `Always`) |
| FlowHistory.Sum | backup.py:103 | `sum(flow_history)`; `SumBounds` bounds it by the sample range |
| FlowHistory.SumBounds | backup.py:103 | when every sample lies in [lo, hi], the sum of n samples lies in [n·lo, n·hi] |
| FlowHistory.Average | backup.py:103 | `sum / len`: the average times the number of samples is the sum; `AverageBounds` places it within the sample range |
| FlowHistory.AverageBounds | backup.py:103 | the rolling average lies within any range [lo, hi] that holds every sample |
| FillInterval.Gaps | backup.py:92 | the zip of consecutive timestamps as their differences; `GapsTelescope` sums them |
| ControlSpec.Init | backup.py:17-22 | the start-up globals; `InitInv` proves they satisfy the invariant |
| ControlSpec.Inv | backup.py:17-22 | the invariant the program keeps: cache = last bus write per register, no repeated register write, register writes in range, target in range, history ≤ 20, filling only while running (`StepInv`, `TickInv`, `ToggleInv`, `RunInv`) |
| ControlSpec.WriteValveFlow | backup.py:36-41 | register r's cache becomes the value; every other entry is unchanged. One `WriteRegister` is appended exactly when the cached entry differed. Nothing else changes |
| ControlSpec.StopAll | backup.py:48-51 | the four-coil off write comes first and is unconditional. It is followed only by zero writes to the two valve registers. Both caches become 0. Nothing else changes |
| ControlSpec.EnterFill | backup.py:79-87 | after the full stop come the fill-valve open and the fill-pump schedule. Register 0's cache becomes 1000. `now` is appended to the fill timestamps and the mode becomes filling |
| ControlSpec.FillLogic | backup.py:79-94 | the fill logic only appends to the log and changes only the cache, the timestamps and the mode |
| ControlSpec.Discharge | backup.py:97-99 | appends the discharge-valve open and the discharge-pump schedule |
| ControlSpec.RecordFlow | backup.py:101-106 | only the history and target change. The average is produced exactly when the history is full, and only then does the target adapt to it |
| ControlSpec.Regulation | backup.py:108-116 | the regulator faults exactly when register 1 is uncached. Otherwise it only appends to the log and changes the cache |
| ControlSpec.RoundTenthsExactTies | backup.py:66-67 | at the exact binary ties 0.25, 0.75, 2.75 and 9.75 the rounding is half to even: 0.2, 0.8, 2.8, 9.8 |
| ControlSpec.Step | backup.py:63-116 | a step only appends to the bus log, never switches the system on or off, and can fault only while enabled; its full behaviour is in the `ControlProps` lemmas |
| ControlSpec.Tick | backup.py:121-126 | a poll only appends to the log and keeps `running`; a failed read changes nothing and completes (invariant kept by `TickInv`) |
| ControlSpec.Toggle | backup.py:162-165 | the toggle flips `running`, clears the mode and issues nothing on the bus (invariant kept by `ToggleInv`) |
| ControlSpec.Run | backup.py:119-127 | over any finite stretch of polls and presses the log only grows, and the system ends up running exactly when it started running and an even number of presses occurred, or started stopped and an odd number did; what a run does after an `UncachedValve` fault is stated by `DeadPollingOnlyToggles` |
| ControlSpec.RoundTenths | backup.py:66-67 | `round(x, 1)` in hundredths: a multiple of 10 within 5 of the input, strictly nearest except at ties, and ties go to the even tenth |
| ControlProps.InitInv | backup.py:17-22 | the initial globals satisfy the invariant |
| ControlProps.StepInv | backup.py:63-116 | a step keeps the invariant: cache = last value on the bus for each register; no register write repeats its register's previous value; every register write is to register 0 or 1 with a value in [0, 1000]; target in [1.8, 2.2]; history ≤ 20; filling only while running |
| ControlProps.TickInv | backup.py:121-126 | a poll keeps the invariant |
| ControlProps.ToggleInv | backup.py:162-165 | the toggle keeps the invariant |
| ControlProps.RunInv | backup.py:119-127 | any finite sequence of polls and button presses keeps the invariant |
| ControlProps.Always | backup.py:17-22 | from start-up, whatever is read and pressed, all the facts of the invariant hold |
| ControlProps.CacheInRange | backup.py:36-41 | every cached valve command lies in [0, 1000] |
| ControlProps.WriteValveFlowIdempotent | backup.py:36-41 | writing the same command twice issues at most one bus write |
| ControlProps.DisabledStep | backup.py:73-76 | while disabled a step writes the four coils off first. It follows this only with zero register writes, caches 0 for both registers and clears the mode. The history, target, timestamps and running flag are unchanged, nothing is published and the step completes |
| ControlProps.RepeatedDisabledStep | backup.py:48-51 | a second disabled step appends only the four-coil write: no register traffic |
| ControlProps.ModeTransitions | backup.py:79-90 | the mode becomes filling exactly when enabled, level < 3.0 and not already filling. Filling ends exactly when disabled or when level ≥ 10.0. Between the thresholds the mode is unchanged. Filling implies running |
| ControlProps.FillEntry | backup.py:79-87 | on entry the stop comes first, then the fill-valve open and fill-pump schedule. Register 0 ends cached at 1000 and `now` is appended |
| ControlProps.FillTimestamps | backup.py:86 | the timestamps grow by `now` exactly on entry and are otherwise unchanged |
| ControlProps.FillExitInterval | backup.py:88-94 | an interval is published exactly on leaving fill mode with ≥ 2 timestamps. It is `AverageInterval` of the timestamps, which is (last − first)/(n − 1) |
| ControlProps.DischargeEveryEnabledStep | backup.py:97-99 | every enabled step, in either mode, writes coil 2 on and schedules coil 3, right after the fill logic |
| ControlProps.HistoryStep | backup.py:101-106 | an enabled step appends the flow, evicting the oldest once full. The history never exceeds 20. Average and maximum are published exactly when it holds 20, and only then does the target adapt. A disabled step leaves the history alone |
| ControlProps.RegulatorStep | backup.py:108-116 | the regulator starts from register 1's cache after the fill logic: 0 if that stopped everything, else the old cache. The step faults exactly when that is empty. Otherwise register 1 ends cached at the regulated command |
| ControlProps.RegulationDeadband | backup.py:109-110 | inside the deadband the cached command is re-used and nothing is written |
| ControlProps.CachedNeverFaults | backup.py:110-113 | once register 1 is cached the step never faults and the cache stays filled; a disabled step caches it at 0 |
| ControlProps.UncachedValveReachable | backup.py:19 | start pressed before the first poll, then a poll at level 5.0, reaches the regulator with nothing cached |
| ControlProps.DeadPollingOnlyToggles | backup.py:119-127 | once the polling thread has died, the remaining events change nothing but `running` and the mode: no bus write, cache, target, history or timestamp changes |
| ControlProps.FailedReadSkipped | backup.py:121-122 | a failed read drops out of any run: the run with it equals the run without it |
| ControlProps.ToggleTwice | backup.py:162-165 | pressing the button twice restores `running` and only clears the fill mode |
| CoolantController.Controller.constructor | backup.py:17-22 | the fields start as the initial globals, which satisfy the invariant |
| CoolantController.Controller.WriteValveFlow | backup.py:36-41 | the new state is `ControlSpec.WriteValveFlow` of the old; a command in [0, 1000] to a valve register keeps the invariant |
| CoolantController.Controller.StopAll | backup.py:48-51 | the new state is `ControlSpec.StopAll` of the old; the invariant is kept |
| CoolantController.Controller.UpdateTarget | backup.py:55-60 | only the target changes, to `NextTarget(old target, avg)`; the invariant is kept |
| CoolantController.Controller.ControlLogic | backup.py:63-116 | new state, published values and outcome are those of `ControlSpec.Step`; the invariant is kept |
| CoolantController.Controller.FillControl | backup.py:79-94 | new state and published interval are those of `ControlSpec.FillLogic`; the invariant is kept |
| CoolantController.Controller.EnterFill | backup.py:80-87 | the new state is `ControlSpec.EnterFill` of the old; the invariant is kept |
| CoolantController.Controller.RecordSample | backup.py:101-106 | new state, average and maximum are those of `ControlSpec.RecordFlow`; the invariant is kept |
| CoolantController.Controller.RegulateDischarge | backup.py:108-116 | new state and outcome are those of `ControlSpec.Regulation`; the invariant is kept |
| CoolantController.Controller.Poll | backup.py:121-126 | new state, published values and outcome are those of `ControlSpec.Tick`; the invariant is kept |
| CoolantController.Controller.ToggleSystem | backup.py:162-165 | the new state is `ControlSpec.Toggle` of the old; the invariant is kept |

## Left out

- The Tkinter dashboard: layout, button label and colour, progress bar and
  every `StringVar.set` (backup.py:12-14, 24-33, 125, 129-176). The values a
  step computes for display (average, maximum, fill interval) are returned
  as `Published`. Their formatting is not modelled.
- The Modbus client: connection set-up and close (backup.py:9-10, 177). A
  read is either `ReadOk(level, flow)` or `ReadError`. Writes are entries in
  the log and are assumed to be issued. The source does not check write
  failures either.
- The delayed pump starts (backup.py:43-46, 84, 99): each appears as one
  `ScheduleStart(coil)` event. The 3-second sleep, the later coil write from
  the pump thread, and the race where a pump starts after the mode has
  changed are not modelled.
- The polling loop's `while True` and `time.sleep(1)` (backup.py:119-127)
  and its thread (backup.py:175). `Run` covers any finite stretch of events.
  Each button press is taken to happen between two polls, never inside one.
  Two properties rest on this: "fill mode only while running" (`Inv`,
  `Always`) and the all-off state after a disabled step (`DisabledStep`).
  In the program a press can land while a step is entering fill mode.
  `toggle_system` then sets `system_running` to False and clears the mode.
  The step goes on to set `current_mode = 'filling'` (backup.py:87) and to
  write coil 2 on. So the program sits in fill mode while stopped until the
  next poll.
- `time.time()`: the step takes the timestamp `now` as a parameter.
- Python floats: the model works in exact hundredths, so float effects are
  not captured. This covers drift of `target_flow` over many ±0.01 steps.
  It also covers the regulator's arithmetic. `2.0 - 1.8` is
  0.19999999999999996 in binary, so `int(100 * (2.0 - 1.8))` is 19: at
  target 2.00 and flow 1.80 the program moves the valve from 500 to 519,
  where `RegulateExample` gives 520. At target 2.01 and flow 2.00,
  `abs(2.01 - 2.0)` is 0.009999999999999787 < 0.01: the program holds the
  valve inside the deadband, while the model moves it by one. The
  regulator's command can thus fall one short of the model's, or stay put
  where the model moves.
- RoundTenths: models `round(x, 1)` as round-half-even on the exact value.
  The program divides a raw reading ending in 5 by 100.0. That quotient is
  an exact tie only for readings ending in 25 or 75. There the program also
  rounds half to even, as the model does (`RoundTenthsExactTies`: 0.25 →
  0.2, 0.75 → 0.8, 2.75 → 2.8, 9.75 → 9.8). For readings ending in 05, 15,
  35, 45, 55, 65, 85 or 95 the program rounds the stored binary value
  instead, and the model and the program can round in opposite directions. That
  changes decisions: at raw level 995, `round(9.95, 1)` is 9.9 and the
  program stays in fill mode, while the model rounds to 10.0 and leaves it.
  At raw flow 185 the program feeds 1.9 to the regulator and the model
  feeds 1.8. The fill exit, the fill entry and the regulator input can
  differ from the program in either direction at such readings.
- The 16-bit width of the input registers: reads are unbounded naturals.
  No decision in the step depends on the width.

=== FILE: bus.dfy ===
/** The register bus as the controller sees it: an append-only log of the
    writes it issues.  The Modbus client itself (connection, transport,
    acknowledgements) is not part of this model; a delayed pump start, which
    the program runs on a short-lived thread, appears in the log as the
    single event that schedules it. */
module Bus {

  datatype Option<+T> = None | Some(value: T)

  /** One thing the controller asks of the bus. */
  datatype BusEvent =
    | WriteCoil(address: int, on: bool)
    | WriteCoils(address: int, values: seq<bool>)
    | WriteRegister(address: int, value: int)
    | ScheduleStart(coil: int)

  // Coil addresses.
  const FillValve := 0
  const FillPump := 1
  const DischValve := 2
  const DischPump := 3
  /** First address of the block of four coils `stop_all` writes at once. */
  const CoilBlock := 0

  // Holding registers of the two modulating valves.
  const FillFlowRegister := 0
  const DischFlowRegister := 1

  // Range of a modulating-valve command.
  const ValveMin := 0
  const ValveMax := 1000

  /** The value last written to register `address`, if any was. */
  function LastRegisterWrite(log: seq<BusEvent>, address: int): (r: Option<int>)
    ensures r.Some? ==> WriteRegister(address, r.value) in log
    decreases |log|
  {
    if log == [] then None
    else
      var e := log[|log| - 1];
      if e.WriteRegister? && e.address == address then Some(e.value)
      else LastRegisterWrite(log[..|log| - 1], address)
  }

  /** Write suppression as a property of the bus: no register write repeats
      the value last written to the same register. */
  ghost predicate NoRedundantWrite(log: seq<BusEvent>)
  {
    forall k | 0 <= k < |log| && log[k].WriteRegister? ::
      LastRegisterWrite(log[..k], log[k].address) != Some(log[k].value)
  }

  /** Every register write goes to one of the two valve registers, with a
      command in [ValveMin, ValveMax]. */
  ghost predicate RegistersInRange(log: seq<BusEvent>)
  {
    forall e | e in log && e.WriteRegister? ::
      e.address in {FillFlowRegister, DischFlowRegister} && ValveMin <= e.value <= ValveMax
  }

  lemma LastRegisterWriteAppend(log: seq<BusEvent>, e: BusEvent, address: int)
    ensures LastRegisterWrite(log + [e], address)
         == if e.WriteRegister? && e.address == address then Some(e.value)
            else LastRegisterWrite(log, address)
  {
    assert (log + [e])[..|log|] == log;
  }

  lemma {:induction false} NoRedundantWriteAppend(log: seq<BusEvent>, e: BusEvent)
    requires NoRedundantWrite(log)
    requires e.WriteRegister? ==> LastRegisterWrite(log, e.address) != Some(e.value)
    ensures NoRedundantWrite(log + [e])
  {
    var log' := log + [e];
    forall k | 0 <= k < |log'| && log'[k].WriteRegister?
      ensures LastRegisterWrite(log'[..k], log'[k].address) != Some(log'[k].value)
    {
      if k < |log| {
        assert log'[..k] == log[..k];
        assert log'[k] == log[k];
      } else {
        assert log'[..k] == log;
      }
    }
  }
}

=== FILE: control_props.dfy ===
/** Properties of the control step (ControlSpec): the state invariant and
    the behaviour the program promises for the disabled step, the fill
    hysteresis, the discharge line, the flow history, the target adapter,
    the regulator, the poll and the operator toggle. */
module ControlProps {
  import opened Bus
  import opened Regulator
  import opened TargetAdapter
  import opened FlowHistory
  import opened FillInterval
  import opened ControlSpec

  /** The step enters fill mode. */
  ghost predicate Entering(s: State, level: int)
  {
    s.running && level < LowLevel && s.mode != Filling
  }

  /** The step leaves fill mode. */
  ghost predicate Leaving(s: State, level: int)
  {
    s.running && level >= HighLevel && s.mode == Filling
  }

  // ---------------------------------------------------------------------
  // The invariant

  lemma InitInv()
    ensures Inv(Init())
  {
  }

  lemma AppendEventInv(s: State, e: BusEvent)
    requires Inv(s) && !e.WriteRegister?
    ensures Inv(s.(log := s.log + [e]))
  {
    LastRegisterWriteAppend(s.log, e, FillFlowRegister);
    LastRegisterWriteAppend(s.log, e, DischFlowRegister);
    NoRedundantWriteAppend(s.log, e);
  }

  lemma AppendTwoEventsInv(s: State, e1: BusEvent, e2: BusEvent)
    requires Inv(s) && !e1.WriteRegister? && !e2.WriteRegister?
    ensures Inv(s.(log := s.log + [e1, e2]))
  {
    var s1 := s.(log := s.log + [e1]);
    AppendEventInv(s, e1);
    AppendEventInv(s1, e2);
    assert s.log + [e1, e2] == s1.log + [e2];
  }

  /** A suppressed write keeps the cache equal to the last value on the bus
      and never repeats that value. */
  lemma WriteValveFlowInv(s: State, register: int, value: int)
    requires Inv(s)
    requires register in {FillFlowRegister, DischFlowRegister}
    requires ValveMin <= value <= ValveMax
    ensures Inv(WriteValveFlow(s, register, value))
  {
    if Get(s.lastFlows, register) != Some(value) {
      var e := WriteRegister(register, value);
      LastRegisterWriteAppend(s.log, e, FillFlowRegister);
      LastRegisterWriteAppend(s.log, e, DischFlowRegister);
      NoRedundantWriteAppend(s.log, e);
    }
  }

  lemma StopAllInv(s: State)
    requires Inv(s)
    ensures Inv(StopAll(s))
  {
    var s1 := s.(log := s.log + [WriteCoils(CoilBlock, AllOff)]);
    AppendEventInv(s, WriteCoils(CoilBlock, AllOff));
    WriteValveFlowInv(s1, FillFlowRegister, 0);
    WriteValveFlowInv(WriteValveFlow(s1, FillFlowRegister, 0), DischFlowRegister, 0);
  }

  lemma FillLogicInv(s: State, level: int, now: real)
    requires Inv(s) && s.running
    ensures Inv(FillLogic(s, level, now).0)
  {
    if level < LowLevel {
      if s.mode != Filling {
        var s1 := StopAll(s);
        StopAllInv(s);
        var s2 := s1.(log := s1.log + [WriteCoil(FillValve, true), ScheduleStart(FillPump)]);
        AppendTwoEventsInv(s1, WriteCoil(FillValve, true), ScheduleStart(FillPump));
        WriteValveFlowInv(s2, FillFlowRegister, ValveMax);
      }
    } else if level >= HighLevel && s.mode == Filling {
      StopAllInv(s);
    }
  }

  /** Every step keeps the invariant: the write cache mirrors the bus, no
      register write repeats the previous value of its register, every
      register write lies in [0, 1000], the target stays in [1.8, 2.2], the
      history holds at most 20 samples, and fill mode implies enabled. */
  lemma StepInv(s: State, level: int, flow: int, now: real)
    requires Inv(s)
    ensures Inv(Step(s, level, flow, now).state)
  {
    if !s.running {
      StopAllInv(s);
    } else {
      var (s1, _) := FillLogic(s, level, now);
      FillLogicInv(s, level, now);
      var s2 := Discharge(s1);
      AppendTwoEventsInv(s1, WriteCoil(DischValve, true), ScheduleStart(DischPump));
      var (s3, _, _) := RecordFlow(s2, flow);
      assert Inv(s3);
      var prev := Get(s3.lastFlows, DischFlowRegister);
      if prev.Some? {
        assert prev == LastRegisterWrite(s3.log, DischFlowRegister);
        assert WriteRegister(DischFlowRegister, prev.value) in s3.log;
        WriteValveFlowInv(s3, DischFlowRegister, Regulate(prev.value, s3.target, flow));
      }
    }
  }

  lemma TickInv(s: State, read: ReadResult, now: real)
    requires Inv(s)
    ensures Inv(Tick(s, read, now).state)
  {
    if read.ReadOk? {
      StepInv(s, RoundTenths(read.levelRaw), RoundTenths(read.flowRaw), now);
    }
  }

  lemma ToggleInv(s: State)
    requires Inv(s)
    ensures Inv(Toggle(s))
  {
  }

  lemma {:induction false} RunInv(s: State, polling: bool, events: seq<Event>)
    requires Inv(s)
    ensures Inv(Run(s, polling, events))
    decreases |events|
  {
    if events != [] {
      match events[0]
      case Press =>
        ToggleInv(s);
        RunInv(Toggle(s), polling, events[1..]);
      case PollEvent(read, now) =>
        if !polling {
          RunInv(s, polling, events[1..]);
        } else {
          var r := Tick(s, read, now);
          TickInv(s, read, now);
          RunInv(r.state, r.outcome == Completed, events[1..]);
        }
    }
  }

  /** From start-up on, whatever is read and pressed: the target stays in
      [1.8, 2.2], every register write lies in [0, 1000] and goes to a valve
      register, no register write repeats its register's previous value,
      the cache agrees with the bus, the history holds at most 20 samples
      and fill mode is only ever on while the system runs. */
  lemma Always(events: seq<Event>)
    ensures var s := Run(Init(), true, events);
      && InRange(s.target)
      && RegistersInRange(s.log)
      && NoRedundantWrite(s.log)
      && s.lastFlows.Keys == {FillFlowRegister, DischFlowRegister}
      && s.lastFlows[FillFlowRegister] == LastRegisterWrite(s.log, FillFlowRegister)
      && s.lastFlows[DischFlowRegister] == LastRegisterWrite(s.log, DischFlowRegister)
      && |s.history| <= Capacity
      && (s.mode == Filling ==> s.running)
  {
    InitInv();
    RunInv(Init(), true, events);
  }

  /** Every cached command lies in the valve range. */
  lemma CacheInRange(s: State, register: int)
    requires Inv(s) && register in s.lastFlows && s.lastFlows[register].Some?
    ensures ValveMin <= s.lastFlows[register].value <= ValveMax
  {
    assert WriteRegister(register, s.lastFlows[register].value) in s.log;
  }

  // ---------------------------------------------------------------------
  // Write suppression

  /** Writing the same command twice issues one bus write. */
  lemma WriteValveFlowIdempotent(s: State, register: int, value: int)
    ensures var s1 := WriteValveFlow(s, register, value);
      WriteValveFlow(s1, register, value) == s1
      && |s1.log| <= |s.log| + 1
  {
  }

  // ---------------------------------------------------------------------
  // The disabled step

  /** While disabled, a step writes the four coils off, caches 0 for both
      valve registers, clears the mode, and touches nothing else. */
  lemma DisabledStep(s: State, level: int, flow: int, now: real)
    requires !s.running
    ensures var r := Step(s, level, flow, now);
      && r.state.mode == Idle
      && r.state.lastFlows == s.lastFlows[FillFlowRegister := Some(0)][DischFlowRegister := Some(0)]
      && r.state.log[..|s.log| + 1] == s.log + [WriteCoils(CoilBlock, AllOff)]
      && (forall i | |s.log| < i < |r.state.log| :: r.state.log[i].WriteRegister? && r.state.log[i].value == 0)
      && r.state.(mode := s.mode, lastFlows := s.lastFlows, log := s.log) == s
      && r.published == Nothing && r.outcome == Completed
  {
  }

  /** A second disabled step issues only the coil write: both registers are
      already cached at 0, so the full stop is repeated without register
      traffic. */
  lemma RepeatedDisabledStep(s: State, level: int, flow: int, now: real,
                             level': int, flow': int, now': real)
    requires !s.running
    ensures var s1 := Step(s, level, flow, now).state;
      Step(s1, level', flow', now').state == s1.(log := s1.log + [WriteCoils(CoilBlock, AllOff)])
  {
  }

  // ---------------------------------------------------------------------
  // The fill hysteresis

  /** The mode enters fill exactly when enabled below 3.0 and not already
      filling, leaves it exactly when disabled or at 10.0 and above, and is
      unchanged in between. */
  lemma ModeTransitions(s: State, level: int, flow: int, now: real)
    ensures var m := Step(s, level, flow, now).state.mode;
      && (m == Filling && s.mode != Filling <==> Entering(s, level))
      && (s.mode == Filling && m == Idle <==> s.mode == Filling && (!s.running || level >= HighLevel))
      && (s.running && LowLevel <= level < HighLevel ==> m == s.mode)
      && (m == Filling ==> s.running)
  {
  }

  /** On entry the full stop comes first, then the fill valve opens, the
      fill pump is scheduled, the fill valve register is cached at 1000 and
      the start time is recorded. */
  lemma FillEntry(s: State, level: int, flow: int, now: real)
    requires Entering(s, level)
    ensures var r := Step(s, level, flow, now).state;
      && s.log + [WriteCoils(CoilBlock, AllOff)] <= StopAll(s).log
      && StopAll(s).log + [WriteCoil(FillValve, true), ScheduleStart(FillPump)] <= r.log
      && r.lastFlows[FillFlowRegister] == Some(ValveMax)
      && r.fillTimes == s.fillTimes + [now]
  {
    var e := EnterFill(s, now);
    assert FillLogic(s, level, now).0 == e;
    var d := Discharge(e);
    var rf := RecordFlow(d, flow).0;
    var rg := Regulation(rf, flow).0;
    assert Step(s, level, flow, now).state == rg;
    assert e.log <= d.log <= rg.log;
  }

  /** The fill timestamps grow by `now` on entry and are otherwise kept. */
  lemma FillTimestamps(s: State, level: int, flow: int, now: real)
    ensures Step(s, level, flow, now).state.fillTimes
         == if Entering(s, level) then s.fillTimes + [now] else s.fillTimes
  {
  }

  lemma FillLogicInterval(s: State, level: int, now: real)
    requires s.running
    ensures var p := FillLogic(s, level, now).1;
      && (p.Some? <==> Leaving(s, level) && |s.fillTimes| >= 2)
      && (p.Some? ==> p.value == AverageInterval(s.fillTimes))
  {
  }

  lemma StepPublishesInterval(s: State, level: int, flow: int, now: real)
    requires s.running
    ensures Step(s, level, flow, now).published.fillInterval == FillLogic(s, level, now).1
  {
  }

  /** An interval is published exactly on leaving fill mode with two or
      more recorded starts, and it is the mean gap, which AverageInterval
      proves to be (last - first)/(n - 1). */
  lemma FillExitInterval(s: State, level: int, flow: int, now: real)
    ensures Step(s, level, flow, now).published.fillInterval
         == if Leaving(s, level) && |s.fillTimes| >= 2 then Some(AverageInterval(s.fillTimes)) else None
  {
    if s.running {
      StepPublishesInterval(s, level, flow, now);
      FillLogicInterval(s, level, now);
    } else {
      assert Step(s, level, flow, now).published == Nothing;
    }
  }

  // ---------------------------------------------------------------------
  // Discharge, history and target

  /** Every enabled step, in either mode, opens the discharge valve and
      schedules the discharge pump, right after the fill logic. */
  lemma DischargeEveryEnabledStep(s: State, level: int, flow: int, now: real)
    requires s.running
    ensures var r := Step(s, level, flow, now).state;
      var k := |FillLogic(s, level, now).0.log|;
      && |r.log| >= k + 2
      && r.log[k] == WriteCoil(DischValve, true)
      && r.log[k + 1] == ScheduleStart(DischPump)
  {
    var t2 := Discharge(FillLogic(s, level, now).0);
    var t3 := RecordFlow(t2, flow).0;
    var r := Step(s, level, flow, now).state;
    assert r.log[..|t3.log|] == t3.log;
  }

  /** The history takes the sample on every enabled step and never exceeds
      20; average, maximum and adaptation happen exactly when it is full. */
  lemma HistoryStep(s: State, level: int, flow: int, now: real)
    requires |s.history| <= Capacity
    ensures var r := Step(s, level, flow, now);
      var h := r.state.history;
      && |h| <= Capacity
      && h == (if s.running then Append(s.history, flow) else s.history)
      && (s.running && |s.history| == Capacity ==> h == s.history[1..] + [flow])
      && (r.published.avgFlow.Some? <==> s.running && |h| == Capacity)
      && (r.published.maxFlow.Some? <==> r.published.avgFlow.Some?)
      && (r.published.avgFlow.Some? ==>
            r.published.avgFlow.value == Average(h) && r.published.maxFlow == Some(Max(h)))
      && (r.state.target == if s.running && |h| == Capacity
                            then NextTarget(s.target, Average(h)) else s.target)
  {
  }

  // ---------------------------------------------------------------------
  // The regulator

  /** The regulator works from register 1's cache after the fill logic:
      0 when the fill logic stopped everything, the old cache otherwise.
      The step faults exactly when that cache is still empty; otherwise the
      register ends up holding the regulated command. */
  lemma RegulatorStep(s: State, level: int, flow: int, now: real)
    requires s.running
    ensures var r := Step(s, level, flow, now);
      var prev := if Entering(s, level) || Leaving(s, level) then Some(0)
                  else Get(s.lastFlows, DischFlowRegister);
      && (r.outcome == UncachedValve <==> prev.None?)
      && (prev.Some? ==>
            r.state.lastFlows[DischFlowRegister] == Some(Regulate(prev.value, r.state.target, flow)))
  {
    var s1 := FillLogic(s, level, now).0;
    assert Get(s1.lastFlows, DischFlowRegister)
        == if Entering(s, level) || Leaving(s, level) then Some(0)
           else Get(s.lastFlows, DischFlowRegister);
  }

  /** Inside the deadband the regulator re-uses the cached command and
      issues no write. */
  lemma RegulationDeadband(s: State, flow: int)
    requires Get(s.lastFlows, DischFlowRegister).Some? && s.target == flow
    ensures Regulation(s, flow) == (s, Completed)
  {
  }

  /** Once register 1 is cached the step never faults and the cache stays
      filled; a disabled step always fills it. */
  lemma CachedNeverFaults(s: State, level: int, flow: int, now: real)
    ensures var r := Step(s, level, flow, now);
      && (Get(s.lastFlows, DischFlowRegister).Some? ==>
            r.outcome == Completed && Get(r.state.lastFlows, DischFlowRegister).Some?)
      && (!s.running ==> Get(r.state.lastFlows, DischFlowRegister) == Some(0))
  {
  }

  /** The fault is reachable: pressing start before the first poll leaves
      register 1 uncached, and a first poll at a level of 5.0 (no fill
      transition) reaches the regulator with nothing cached. */
  lemma UncachedValveReachable()
    ensures Run(Init(), true, [Press, PollEvent(ReadOk(500, 200), 0.0)]).running
    ensures Tick(Toggle(Init()), ReadOk(500, 200), 0.0).outcome == UncachedValve
  {
    var s1 := Toggle(Init());
    var poll := PollEvent(ReadOk(500, 200), 0.0);
    assert RoundTenths(500) == 500 && RoundTenths(200) == 200;
    RegulatorStep(s1, 500, 200, 0.0);
    var r := Tick(s1, poll.read, poll.now);
    assert r.outcome == UncachedValve;
    assert [Press, poll][1..] == [poll] && [poll][1..] == [];
    assert Run(Init(), true, [Press, poll]) == Run(s1, true, [poll]);
    assert Run(s1, true, [poll]) == Run(r.state, false, []);
  }

  // ---------------------------------------------------------------------
  // Poll and toggle

  /** A failed read drops out of any run: the loop just tries again on the
      next pass, whether or not polling is still alive. */
  lemma FailedReadSkipped(s: State, polling: bool, now: real, events: seq<Event>)
    ensures Run(s, polling, [PollEvent(ReadError, now)] + events) == Run(s, polling, events)
  {
    assert ([PollEvent(ReadError, now)] + events)[1..] == events;
  }

  /** Once polling has died, the remaining events change nothing but what
      the button sets: `running` and the fill mode. */
  lemma {:induction false} DeadPollingOnlyToggles(s: State, events: seq<Event>)
    ensures Run(s, false, events).(running := s.running, mode := s.mode) == s
    decreases |events|
  {
    if events != [] {
      match events[0]
      case Press =>
        DeadPollingOnlyToggles(Toggle(s), events[1..]);
      case PollEvent(_, _) =>
        DeadPollingOnlyToggles(s, events[1..]);
    }
  }

  /** Pressing the button twice restores `running` and only clears the
      fill mode. */
  lemma ToggleTwice(s: State)
    ensures Toggle(Toggle(s)) == s.(mode := Idle)
  {
  }
}

=== FILE: control_spec.dfy ===
/** The control step of the coolant tank as functions on the controller's
    state (backup.py:17-22, 36-41, 48-116, 121-126, 162-165).  These are
    the specification the `Controller` class is proved against; the
    properties of the controller are lemmas about them (ControlProps).

    Units: level, flow and target are integers in hundredths (a level of
    2.9 is 290, a flow of 1.8 L/min is 180); averages and timestamps are
    reals. */
module ControlSpec {
  import opened Bus
  import opened Regulator
  import opened TargetAdapter
  import opened FlowHistory
  import opened FillInterval

  /** `current_mode`: None or 'filling'. */
  datatype Mode = Idle | Filling

  /** The module globals of the program, plus the bus log. */
  datatype State = State(
    running: bool,                       // system_running
    mode: Mode,                          // current_mode
    lastFlows: map<int, Option<int>>,    // last_flows, the register write cache
    target: int,                         // target_flow, in hundredths
    history: seq<int>,                   // flow_history, oldest first
    fillTimes: seq<real>,                // fill_timestamps
    log: seq<BusEvent>)                  // every write issued so far

  /** The values a step hands to the dashboard, when it computes them. */
  datatype Published = Published(
    avgFlow: Option<real>,
    maxFlow: Option<int>,
    fillInterval: Option<real>)

  /** How a step ends: normally, or with the `TypeError` raised when the
      regulator reads register 1's cache before anything was written to it
      (`last_flows.get(1, 500)` is `None`, since the key is present). */
  datatype Outcome = Completed | UncachedValve

  datatype StepResult = StepResult(state: State, published: Published, outcome: Outcome)

  /** What one poll of the two input registers returned. */
  datatype ReadResult = ReadOk(levelRaw: nat, flowRaw: nat) | ReadError

  // Fill hysteresis thresholds, 3.0 and 10.0.
  const LowLevel := 300
  const HighLevel := 1000

  const AllOff := [false, false, false, false]

  const Nothing := Published(None, None, None)

  function Init(): State
  {
    State(false, Idle, map[FillFlowRegister := None, DischFlowRegister := None],
          TargetInit, [], [], [])
  }

  /** `dict.get`. */
  function Get(m: map<int, Option<int>>, k: int): Option<int>
  {
    if k in m then m[k] else None
  }

  /** `write_valve_flow`: write `value` to `register` unless it is the
      value cached for that register, and cache it. */
  function WriteValveFlow(s: State, register: int, value: int): (r: State)
    ensures r.lastFlows == s.lastFlows[register := Some(value)]
    ensures Get(s.lastFlows, register) == Some(value) ==> r.log == s.log
    ensures Get(s.lastFlows, register) != Some(value) ==>
              r.log == s.log + [WriteRegister(register, value)]
    ensures r.(lastFlows := s.lastFlows, log := s.log) == s
  {
    if Get(s.lastFlows, register) != Some(value) then
      s.(log := s.log + [WriteRegister(register, value)],
         lastFlows := s.lastFlows[register := Some(value)])
    else s
  }

  /** `stop_all`: all four coils off, unconditionally, and both valve
      registers to 0 through the write cache. */
  function StopAll(s: State): (r: State)
    ensures s.log + [WriteCoils(CoilBlock, AllOff)] <= r.log
    ensures forall i | |s.log| < i < |r.log| :: r.log[i] == WriteRegister(FillFlowRegister, 0)
                                                || r.log[i] == WriteRegister(DischFlowRegister, 0)
    ensures r.lastFlows == s.lastFlows[FillFlowRegister := Some(0)][DischFlowRegister := Some(0)]
    ensures r.(lastFlows := s.lastFlows, log := s.log) == s
  {
    var s1 := s.(log := s.log + [WriteCoils(CoilBlock, AllOff)]);
    WriteValveFlow(WriteValveFlow(s1, FillFlowRegister, 0), DischFlowRegister, 0)
  }

  /** Entering fill mode: stop everything, open the fill valve, schedule the
      fill pump, drive the fill valve fully open, record the start time. */
  function EnterFill(s: State, now: real): (r: State)
    ensures StopAll(s).log + [WriteCoil(FillValve, true), ScheduleStart(FillPump)] <= r.log
    ensures r.lastFlows == StopAll(s).lastFlows[FillFlowRegister := Some(ValveMax)]
    ensures r.fillTimes == s.fillTimes + [now] && r.mode == Filling
    ensures r.(lastFlows := s.lastFlows, log := s.log, fillTimes := s.fillTimes, mode := s.mode) == s
  {
    var s1 := StopAll(s);
    var s2 := s1.(log := s1.log + [WriteCoil(FillValve, true), ScheduleStart(FillPump)]);
    var s3 := WriteValveFlow(s2, FillFlowRegister, ValveMax);
    s3.(fillTimes := s3.fillTimes + [now], mode := Filling)
  }

  /** The fill hysteresis (backup.py:79-94), with the fill interval it
      publishes on leaving fill mode. */
  function FillLogic(s: State, level: int, now: real): (r: (State, Option<real>))
    ensures s.log <= r.0.log
    ensures r.0.(lastFlows := s.lastFlows, log := s.log, fillTimes := s.fillTimes, mode := s.mode) == s
  {
    if level < LowLevel then
      (if s.mode != Filling then EnterFill(s, now) else s, None)
    else if level >= HighLevel && s.mode == Filling then
      (StopAll(s).(mode := Idle),
       if |s.fillTimes| >= 2 then Some(AverageInterval(s.fillTimes)) else None)
    else (s, None)
  }

  /** The discharge valve is opened and its pump scheduled on every
      enabled step. */
  function Discharge(s: State): (r: State)
    ensures r.log == s.log + [WriteCoil(DischValve, true), ScheduleStart(DischPump)]
    ensures r.(log := s.log) == s
  {
    s.(log := s.log + [WriteCoil(DischValve, true), ScheduleStart(DischPump)])
  }

  /** The flow sample enters the history; once the history is full the
      target adapts to its average. Returns the average and maximum. */
  function RecordFlow(s: State, flow: int): (r: (State, Option<real>, Option<int>))
    ensures r.0 == s.(history := Append(s.history, flow), target := r.0.target)
    ensures r.1.Some? <==> |r.0.history| == Capacity
    ensures r.0.target == if |r.0.history| == Capacity
                          then NextTarget(s.target, Average(r.0.history)) else s.target
  {
    var h := Append(s.history, flow);
    if |h| == Capacity then
      var avg := Average(h);
      (s.(history := h, target := NextTarget(s.target, avg)), Some(avg), Some(Max(h)))
    else (s.(history := h), None, None)
  }

  /** The regulator's write to the discharge valve register, or the fault
      of an uncached register. */
  function Regulation(s: State, flow: int): (r: (State, Outcome))
    ensures s.log <= r.0.log
    ensures r.0 == s.(lastFlows := r.0.lastFlows, log := r.0.log)
    ensures r.1 == UncachedValve <==> Get(s.lastFlows, DischFlowRegister).None?
  {
    match Get(s.lastFlows, DischFlowRegister)
    case None => (s, UncachedValve)
    case Some(prev) =>
      (WriteValveFlow(s, DischFlowRegister, Regulate(prev, s.target, flow)), Completed)
  }

  /** `control_logic` on the rounded level and flow, at time `now`.  A step
      only adds to the bus log, never switches the system on or off, and
      can fault only while enabled. */
  function Step(s: State, level: int, flow: int, now: real): (r: StepResult)
    ensures s.log <= r.state.log
    ensures r.state.running == s.running
    ensures r.outcome == UncachedValve ==> s.running
  {
    if !s.running then
      StepResult(StopAll(s).(mode := Idle), Nothing, Completed)
    else
      var (s1, interval) := FillLogic(s, level, now);
      var s2 := Discharge(s1);
      var (s3, avg, max) := RecordFlow(s2, flow);
      var (s4, outcome) := Regulation(s3, flow);
      StepResult(s4, Published(avg, max, interval), outcome)
  }

  /** `round(c / 100, 1)` on a value in hundredths, in hundredths: to the
      nearest tenth, a tie going to the even tenth. */
  function RoundTenths(c: nat): (r: nat)
    ensures r % 10 == 0
    ensures -5 <= r - c <= 5
    ensures c % 10 != 5 ==> -5 < r - c < 5
    ensures c % 10 == 5 ==> (r / 10) % 2 == 0
  {
    var q, rem := c / 10, c % 10;
    assert c == q * 10 + rem && 0 <= rem < 10;
    if rem < 5 || (rem == 5 && q % 2 == 0) then q * 10 else (q + 1) * 10
  }

  /** Readings whose scaled value is an exact binary tie (ending in 25 or
      75) round half to even, in the program as in this model. */
  lemma RoundTenthsExactTies()
    ensures RoundTenths(25) == 20 && RoundTenths(75) == 80
    ensures RoundTenths(275) == 280 && RoundTenths(975) == 980
  {
  }

  /** One poll: a failed read changes nothing; otherwise both registers
      are scaled by 1/100 and rounded, and the step runs. */
  function Tick(s: State, read: ReadResult, now: real): (r: StepResult)
    ensures s.log <= r.state.log
    ensures r.state.running == s.running
    ensures read.ReadError? ==> r.state == s && r.outcome == Completed
  {
    match read
    case ReadError => StepResult(s, Nothing, Completed)
    case ReadOk(levelRaw, flowRaw) => Step(s, RoundTenths(levelRaw), RoundTenths(flowRaw), now)
  }

  /** `toggle_system`: flips the system on or off and forgets the fill
      mode; it issues nothing on the bus. */
  function Toggle(s: State): (r: State)
    ensures r.running != s.running && r.mode == Idle
    ensures r.log == s.log
  {
    s.(running := !s.running, mode := Idle)
  }

  /** Something that happens to the controller: a pass of the polling loop,
      or the operator pressing the start/stop button. */
  datatype Event = PollEvent(read: ReadResult, now: real) | Press

  /** A finite stretch of the program's life, one event at a time.  An
      `UncachedValve` fault raises out of the polling loop and ends its
      thread, so later polls do nothing; the button still works. */
  function Run(s: State, polling: bool, events: seq<Event>): (r: State)
    ensures s.log <= r.log
    ensures r.running == (s.running != (PressCount(events) % 2 == 1))
    decreases |events|
  {
    if events == [] then s
    else match events[0]
      case Press => Run(Toggle(s), polling, events[1..])
      case PollEvent(read, now) =>
        if !polling then Run(s, polling, events[1..])
        else
          var r := Tick(s, read, now);
          Run(r.state, r.outcome == Completed, events[1..])
  }

  /** The number of button presses among `events`. */
  function PressCount(events: seq<Event>): nat
  {
    if events == [] then 0
    else (if events[0].Press? then 1 else 0) + PressCount(events[1..])
  }

  /** What the controller keeps true from its initial state on. */
  ghost predicate Inv(s: State)
  {
    && s.lastFlows.Keys == {FillFlowRegister, DischFlowRegister}
    && s.lastFlows[FillFlowRegister] == LastRegisterWrite(s.log, FillFlowRegister)
    && s.lastFlows[DischFlowRegister] == LastRegisterWrite(s.log, DischFlowRegister)
    && RegistersInRange(s.log)
    && NoRedundantWrite(s.log)
    && InRange(s.target)
    && |s.history| <= Capacity
    && (s.mode == Filling ==> s.running)
  }
}

=== FILE: controller.dfy ===
/** The controller as the program runs it: the module globals of
    backup.py:17-22 are the fields of one object, and each function of the
    program is a method that updates them in place.  Every method is proved
    to do what the corresponding function of ControlSpec says. */
module CoolantController {
  import opened Bus
  import opened Regulator
  import opened TargetAdapter
  import opened FlowHistory
  import opened FillInterval
  import opened ControlSpec
  import ControlProps

  class Controller {
    var running: bool
    var mode: Mode
    var lastFlows: map<int, Option<int>>
    var target: int
    var history: seq<int>
    var fillTimes: seq<real>
    /** The writes issued on the bus so far. */
    var log: seq<BusEvent>

    /** The controller's fields as one value. */
    function Snapshot(): State
      reads this
    {
      State(running, mode, lastFlows, target, history, fillTimes, log)
    }

    ghost predicate Valid()
      reads this
    {
      Inv(Snapshot())
    }

    /** The globals as the program initialises them. */
    constructor ()
      ensures Snapshot() == Init()
      ensures Valid()
    {
      running := false;
      mode := Idle;
      lastFlows := map[FillFlowRegister := None, DischFlowRegister := None];
      target := TargetInit;
      history := [];
      fillTimes := [];
      log := [];
      ControlProps.InitInv();
    }

    /** `write_valve_flow` (backup.py:36-41). */
    method WriteValveFlow(register: int, value: int)
      requires Valid()
      requires register in {FillFlowRegister, DischFlowRegister} && ValveMin <= value <= ValveMax
      modifies this
      ensures Valid()
      ensures Snapshot() == ControlSpec.WriteValveFlow(old(Snapshot()), register, value)
    {
      ControlProps.WriteValveFlowInv(Snapshot(), register, value);
      if Get(lastFlows, register) != Some(value) {
        log := log + [WriteRegister(register, value)];
        lastFlows := lastFlows[register := Some(value)];
      }
    }

    /** `stop_all` (backup.py:48-51). */
    method StopAll()
      requires Valid()
      modifies this
      ensures Valid()
      ensures Snapshot() == ControlSpec.StopAll(old(Snapshot()))
    {
      ControlProps.AppendEventInv(Snapshot(), WriteCoils(CoilBlock, AllOff));
      log := log + [WriteCoils(CoilBlock, AllOff)];
      WriteValveFlow(FillFlowRegister, 0);
      WriteValveFlow(DischFlowRegister, 0);
    }

    /** `update_target` (backup.py:55-60). */
    method UpdateTarget(avg: real)
      requires Valid()
      modifies this
      ensures Valid()
      ensures Snapshot() == old(Snapshot()).(target := NextTarget(old(target), avg))
    {
      if avg < BandLow {
        target := if TargetMax < target + TargetStep then TargetMax else target + TargetStep;
      } else if avg > BandHigh {
        target := if TargetMin > target - TargetStep then TargetMin else target - TargetStep;
      }
    }

    /** `control_logic` (backup.py:63-116) on the rounded level and flow, at
        time `now`; returns what it publishes and whether it completed. */
    method ControlLogic(level: int, flow: int, now: real) returns (shown: Published, outcome: Outcome)
      requires Valid()
      modifies this
      ensures Valid()
      ensures var r := Step(old(Snapshot()), level, flow, now);
        Snapshot() == r.state && shown == r.published && outcome == r.outcome
    {
      if !running {
        StopAll();
        mode := Idle;
        shown, outcome := Nothing, Completed;
        return;
      }
      var interval := FillControl(level, now);
      // The discharge line is asserted whatever the fill mode.
      ControlProps.AppendTwoEventsInv(Snapshot(), WriteCoil(DischValve, true), ScheduleStart(DischPump));
      log := log + [WriteCoil(DischValve, true), ScheduleStart(DischPump)];
      var avg, max := RecordSample(flow);
      outcome := RegulateDischarge(flow);
      shown := Published(avg, max, interval);
    }

    /** The fill hysteresis of `control_logic` (backup.py:79-94). */
    method FillControl(level: int, now: real) returns (interval: Option<real>)
      requires Valid() && running
      modifies this
      ensures Valid()
      ensures (Snapshot(), interval) == FillLogic(old(Snapshot()), level, now)
    {
      interval := None;
      if level < LowLevel {
        if mode != Filling {
          EnterFill(now);
        }
      } else if level >= HighLevel && mode == Filling {
        StopAll();
        mode := Idle;
        if |fillTimes| >= 2 {
          interval := Some(AverageInterval(fillTimes));
        }
      }
    }

    /** Entering fill mode (backup.py:80-87), at time `now`. */
    method EnterFill(now: real)
      requires Valid() && running
      modifies this
      ensures Valid()
      ensures Snapshot() == ControlSpec.EnterFill(old(Snapshot()), now)
    {
      StopAll();
      ControlProps.AppendTwoEventsInv(Snapshot(), WriteCoil(FillValve, true), ScheduleStart(FillPump));
      log := log + [WriteCoil(FillValve, true), ScheduleStart(FillPump)];
      WriteValveFlow(FillFlowRegister, ValveMax);
      fillTimes := fillTimes + [now];
      mode := Filling;
    }

    /** The flow history and target adaptation of `control_logic`
        (backup.py:101-106). */
    method RecordSample(flow: int) returns (avgFlow: Option<real>, maxFlow: Option<int>)
      requires Valid()
      modifies this
      ensures Valid()
      ensures (Snapshot(), avgFlow, maxFlow) == RecordFlow(old(Snapshot()), flow)
    {
      history := Append(history, flow);
      avgFlow, maxFlow := None, None;
      if |history| == Capacity {
        var avg := Average(history);
        UpdateTarget(avg);
        avgFlow, maxFlow := Some(avg), Some(Max(history));
      }
    }

    /** The regulator step of `control_logic` (backup.py:108-116). */
    method RegulateDischarge(flow: int) returns (outcome: Outcome)
      requires Valid()
      modifies this
      ensures Valid()
      ensures (Snapshot(), outcome) == Regulation(old(Snapshot()), flow)
    {
      var prev := Get(lastFlows, DischFlowRegister);
      if prev.None? {
        return UncachedValve;
      }
      WriteValveFlow(DischFlowRegister, Regulate(prev.value, target, flow));
      outcome := Completed;
    }

    /** One pass of the polling loop (backup.py:121-126). */
    method Poll(read: ReadResult, now: real) returns (shown: Published, outcome: Outcome)
      requires Valid()
      modifies this
      ensures Valid()
      ensures var r := Tick(old(Snapshot()), read, now);
        Snapshot() == r.state && shown == r.published && outcome == r.outcome
    {
      match read
      case ReadError =>
        shown, outcome := Nothing, Completed;
      case ReadOk(levelRaw, flowRaw) =>
        shown, outcome := ControlLogic(RoundTenths(levelRaw), RoundTenths(flowRaw), now);
    }

    /** `toggle_system` (backup.py:162-165). */
    method ToggleSystem()
      requires Valid()
      modifies this
      ensures Valid()
      ensures Snapshot() == Toggle(old(Snapshot()))
    {
      running := !running;
      mode := Idle;
    }
  }
}

=== FILE: fill_interval.dfy ===
/** The fill interval statistic (backup.py:91-93): the mean of the gaps
    between consecutive fill-start timestamps. */
module FillInterval {

  /** `[t2 - t1 for t1, t2 in zip(ts[:-1], ts[1:])]`. */
  function Gaps(ts: seq<real>): (g: seq<real>)
    requires ts != []
  {
    seq(|ts| - 1, i requires 0 <= i < |ts| - 1 => ts[i + 1] - ts[i])
  }

  function SumReals(s: seq<real>): real
  {
    if s == [] then 0.0 else s[0] + SumReals(s[1..])
  }

  /** The gaps telescope: they add up to the span from first to last. */
  lemma {:induction false} GapsTelescope(ts: seq<real>)
    requires ts != []
    ensures SumReals(Gaps(ts)) == ts[|ts| - 1] - ts[0]
  {
    if |ts| > 1 {
      assert Gaps(ts)[1..] == Gaps(ts[1..]);
      GapsTelescope(ts[1..]);
    }
  }

  /** `sum(intervals) / len(intervals)`, defined once two fills have
      started; it equals the span divided by the number of gaps. */
  function AverageInterval(ts: seq<real>): (avg: real)
    requires |ts| >= 2
    ensures avg == (ts[|ts| - 1] - ts[0]) / (|ts| - 1) as real
  {
    GapsTelescope(ts);
    SumReals(Gaps(ts)) / |Gaps(ts)| as real
  }

  /** With exactly two fill starts the average interval is their distance. */
  lemma AverageIntervalOfTwo(t1: real, t2: real)
    ensures AverageInterval([t1, t2]) == t2 - t1
  {
  }
}

=== FILE: flow_history.dfy ===
/** The rolling flow history, a `deque(maxlen=20)` (backup.py:21,
    101-106), and the statistics taken from it once it is full. */
module FlowHistory {

  const Capacity := 20

  /** `deque.append` on a deque of maximum length `Capacity`: the history
      keeps the `Capacity` most recent samples. */
  function Append(h: seq<int>, x: int): (r: seq<int>)
    ensures |r| == if |h| < Capacity then |h| + 1 else Capacity
    ensures r == (h + [x])[|h| + 1 - |r|..]
  {
    var h' := h + [x];
    if |h'| > Capacity then h'[|h'| - Capacity..] else h'
  }

  function Sum(h: seq<int>): int
  {
    if h == [] then 0 else h[0] + Sum(h[1..])
  }

  /** The rolling average, `sum(h) / len(h)`. */
  function Average(h: seq<int>): (avg: real)
    requires h != []
    ensures avg * |h| as real == Sum(h) as real
  {
    Sum(h) as real / |h| as real
  }

  /** Samples within [lo, hi] sum to within [n * lo, n * hi]. */
  lemma {:induction false} SumBounds(h: seq<int>, lo: int, hi: int)
    requires forall i | 0 <= i < |h| :: lo <= h[i] <= hi
    ensures |h| * lo <= Sum(h) <= |h| * hi
  {
    if h != [] {
      SumBounds(h[1..], lo, hi);
    }
  }

  /** The rolling average lies within any range that holds every sample. */
  lemma AverageBounds(h: seq<int>, lo: int, hi: int)
    requires h != [] && forall i | 0 <= i < |h| :: lo <= h[i] <= hi
    ensures lo as real <= Average(h) <= hi as real
  {
    SumBounds(h, lo, hi);
    CastProduct(|h|, lo);
    CastProduct(|h|, hi);
    QuotientBounds(Sum(h) as real, |h| as real, lo as real, hi as real);
  }

  lemma CastProduct(a: int, b: int)
    ensures (a * b) as real == a as real * b as real
  {
  }

  /** Dividing by a positive count keeps the bounds of the sum. */
  lemma QuotientBounds(x: real, n: real, a: real, b: real)
    requires n > 0.0 && n * a <= x <= n * b
    ensures a <= x / n <= b
  {
    assert x / n - a == (x - n * a) / n;
    assert b - x / n == (n * b - x) / n;
  }

  /** The rolling maximum, `max(h)`. */
  function Max(h: seq<int>): (m: int)
    requires h != []
    ensures m in h
    ensures forall i | 0 <= i < |h| :: h[i] <= m
  {
    if |h| == 1 then h[0]
    else
      var rest := Max(h[1..]);
      if h[0] < rest then rest else h[0]
  }
}

=== FILE: regulator.dfy ===
/** The incremental proportional flow regulator of the discharge valve
    (backup.py:108-114).  Flows and the target are in hundredths of a
    litre per minute, so that the error `target - flow` in hundredths is
    exactly `gain * error` with the error in litres per minute. */
module Regulator {
  import opened Bus

  /** Proportional gain, per litre per minute of error. */
  const Gain := 100
  /** Errors strictly smaller than this (in hundredths) are inside the deadband. */
  const Deadband := 1

  function Abs(x: int): (r: nat)
    ensures r == x || r == -x
  {
    if x < 0 then -x else x
  }

  /** `max(lo, min(hi, x))`. */
  function Clamp(x: int, lo: int, hi: int): (r: int)
    requires lo <= hi
    ensures lo <= r <= hi
    ensures lo <= x <= hi ==> r == x
  {
    if x < lo then lo else if x > hi then hi else x
  }

  /** The clamped value is the point of [lo, hi] nearest to `x`. */
  lemma ClampNearest(x: int, lo: int, hi: int, y: int)
    requires lo <= hi && lo <= y <= hi
    ensures Abs(Clamp(x, lo, hi) - x) <= Abs(y - x)
  {
  }

  /** The new command for the discharge valve, given the previous command,
      the target flow and the measured flow.  `Gain * error / 100` is the
      source's `int(gain * error)` with the error in hundredths. */
  function Regulate(prev: int, target: int, flow: int): (valve: int)
    ensures target - flow == 0 ==> valve == prev
    ensures target != flow ==> ValveMin <= valve <= ValveMax
    ensures ValveMin <= prev <= ValveMax ==> ValveMin <= valve <= ValveMax
    ensures flow < target ==> valve >= prev || prev > ValveMax
    ensures flow > target ==> valve <= prev || prev < ValveMin
    ensures ValveMin <= prev <= ValveMax ==> Abs(valve - prev) <= Abs(target - flow)
  {
    var error := target - flow;
    if Abs(error) < Deadband then prev
    else Clamp(prev + Gain * error / 100, ValveMin, ValveMax)
  }

  /** Outside the deadband the new command is the point of the valve range
      nearest to the previous command plus the proportional correction. */
  lemma RegulateIsNearestCommand(prev: int, target: int, flow: int, y: int)
    requires target != flow
    requires ValveMin <= y <= ValveMax
    ensures Abs(Regulate(prev, target, flow) - (prev + (target - flow)))
         <= Abs(y - (prev + (target - flow)))
  {
    assert Gain * (target - flow) / 100 == target - flow;
    ClampNearest(prev + (target - flow), ValveMin, ValveMax, y);
  }

  /** With target 2.00 and measured 1.80 from a previous command of 500, the
      new command is 500 + 100 * 0.2 = 520. */
  lemma RegulateExample()
    ensures Regulate(500, 200, 180) == 520
    ensures Regulate(500, 200, 200) == 500
  {
  }
}

=== FILE: target_adapter.dfy ===
/** The adaptive flow setpoint (backup.py:20, 55-60).  The target is kept
    in hundredths of a litre per minute; the rolling average it reacts to is
    a `real` in the same unit. */
module TargetAdapter {

  const TargetInit := 200
  const TargetMin := 180
  const TargetMax := 220
  /** One adaptation moves the target by 0.01. */
  const TargetStep := 1
  /** The tolerance band [1.95, 2.05] of the rolling average. */
  const BandLow: real := 195.0
  const BandHigh: real := 205.0

  ghost predicate InRange(target: int)
  {
    TargetMin <= target <= TargetMax
  }

  /** The target after one adaptation to the rolling average `avg`. */
  function NextTarget(target: int, avg: real): (t: int)
    ensures InRange(target) ==> InRange(t)
    ensures InRange(target) ==> target - TargetStep <= t <= target + TargetStep
    ensures InRange(target) && t > target ==> avg < BandLow
    ensures InRange(target) && t < target ==> avg > BandHigh
    ensures BandLow <= avg <= BandHigh ==> t == target
    ensures avg < BandLow && target < TargetMax ==> t == target + TargetStep
    ensures avg > BandHigh && target > TargetMin ==> t == target - TargetStep
  {
    if avg < BandLow then
      if TargetMax < target + TargetStep then TargetMax else target + TargetStep
    else if avg > BandHigh then
      if TargetMin > target - TargetStep then TargetMin else target - TargetStep
    else target
  }

  /** However many adaptations run, a target that starts in range stays in
      range and moves by at most one step per adaptation. */
  function Adapt(target: int, avgs: seq<real>): (t: int)
    requires InRange(target)
    ensures InRange(t)
    ensures -|avgs| * TargetStep <= t - target <= |avgs| * TargetStep
    decreases |avgs|
  {
    if avgs == [] then target
    else Adapt(NextTarget(target, avgs[0]), avgs[1..])
  }

  /** Averages of 1.90, 2.10 and 2.00 raise, lower and keep the target. */
  lemma NextTargetExamples()
    ensures NextTarget(200, 190.0) == 201
    ensures NextTarget(220, 190.0) == 220
    ensures NextTarget(200, 210.0) == 199
    ensures NextTarget(180, 210.0) == 180
    ensures NextTarget(200, 200.0) == 200
  {
  }
}
